=== FILE: README.md ===
# Cached inventory: a verified model of the stock core

This project models the stock logic of the CachedInventory web service.

**Legacy warehouse store client** (`WarehouseStockSystemClient`).
- It keeps one record per product, in a file named `stock-{id}.json` under the directory given by `LEGACY_FILE_STORAGE`, or under `./` when that variable is unset.
- A missing or unreadable record reads as 0.
- A write overwrites only the record of its own product.

**Stock endpoints** (`CachedInventoryApiBuilder`): get, retrieve and restock, run against that store.

**In-memory product cache** (`Cache` and `Producto`).
- It loads products 1 to 5 from the store.
- It refreshes the list when the list is more than 30 minutes old.
- It decrements a cached product's quantity in place.
- It writes every cached quantity back to the store.

Modules:

- `DotNetInt` (`dotnet_int.dfy`)
  - C#'s 32-bit `int`, with its unchecked wrap-around on `+` and `-`.
  - `int.ToString()` as decimal text.
  - A parser for that text, which proves that distinct ints print differently.
- `LegacyStore` (`legacy_store.dfy`)
  - The record file name, with a proof that it is injective.
  - The store as a map from product id to record, with the on-disk view by file name derived from that map.
  - The class `WarehouseStockSystemClient`, with `GetStock` and `UpdateStock`.
- `InventoryApi` (`inventory_api.dfy`)
  - The three handler bodies, as methods on the client.
  - Beside them, the functions `RetrieveOutcome` and `RestockOutcome`, which give each handler's result and the store it leaves behind.
  - The sequential scenario of the integration test.
- `ProductCache` (`product_cache.dfy`)
  - The classes `Producto` and `Cache`. `Cache` has a ghost field `Contents` (the values of the cached products) and an invariant `Valid()`.
  - The functions that specify its operations: `Catalog`, `Withdraw` and `SyncWrites`.

Clock readings (`DateTime.Now`) are method parameters, in `DateTime` ticks. The environment variable `LEGACY_FILE_STORAGE` is a constructor parameter of the client.

The store is keyed by product id rather than by file name. `OnDisk` rebuilds the directory content by file name from that map. It does so through `Rename`, which re-keys records under any injective naming, and `Naming` shows that `FileName` is one. `OnDiskAfterWrite` shows that an update writes exactly one file.

The code has no write-back cache, per-product lock table, load-on-miss or debounced flush, so the model follows the code:
- The endpoints read and write the store directly. They do not reject non-positive amounts.
- A failed store read yields 0 rather than an error.
- Restock answers a bare Ok rather than the new quantity.
- The `Cache` class is a separate list of products that no endpoint uses.

## Model

| member | source | states |
|---|---|---|
| DotNetInt.Wrap | cached-inventory/CachedInventory/CachedInventory/CachedInventoryApiBuilder.cs:44 | The unchecked C# `int` result of an addition or subtraction. It equals the exact value when that value fits in 32 bits; otherwise it differs from it by exactly 2^32. |
| DotNetInt.ParseToString | cached-inventory/CachedInventory/CachedInventory/WarehouseStockSystemClient.cs:80 | Parsing the decimal text of `productId.ToString()` gives back the id, for every int, negative ones included. |
| DotNetInt.ToStringInjective | cached-inventory/CachedInventory/CachedInventory/WarehouseStockSystemClient.cs:80 | Distinct ids have distinct decimal texts. |
| DotNetInt.ToString | cached-inventory/CachedInventory/CachedInventory/WarehouseStockSystemClient.cs:80 | `productId.ToString()` starts with '-' exactly when the id is negative. After that sign come one or more decimal digits with no leading zero (a lone "0" aside), and `ParseToString` shows that they read back as the id. |
| LegacyStore.Combine | cached-inventory/CachedInventory/CachedInventory/WarehouseStockSystemClient.cs:78-80 | `Path.Combine(dir, name)` is `dir + name` or `dir + "/" + name`. It is the former only when `dir` is empty or already ends with '/', so `name` is always a whole path component. |
| LegacyStore.CombineCancel | cached-inventory/CachedInventory/CachedInventory/WarehouseStockSystemClient.cs:78-80 | Joining the same directory to two names gives the same path only when the names are equal. |
| LegacyStore.FileName | cached-inventory/CachedInventory/CachedInventory/WarehouseStockSystemClient.cs:78-80 | The record file starts with the storage directory and ends with the local name "stock-" + `ToString(id)` + ".json", which is the whole path or is preceded by '/'. So the file lies under the storage directory. |
| LegacyStore.FileNameInjective | cached-inventory/CachedInventory/CachedInventory/WarehouseStockSystemClient.cs:78-80 | Two product ids that share a file name are equal. |
| LegacyStore.Naming | cached-inventory/CachedInventory/CachedInventory/WarehouseStockSystemClient.cs:78-80 | The file names of one storage directory, as a function of the id, are exactly `FileName` and are injective: every product id has a file of its own. |
| LegacyStore.RenameLookup | cached-inventory/CachedInventory/CachedInventory/WarehouseStockSystemClient.cs:78-80 | Under any injective naming, a product's file exists exactly when the product has a record, and it holds that record. |
| LegacyStore.RenameAfterWrite | cached-inventory/CachedInventory/CachedInventory/WarehouseStockSystemClient.cs:74-75 | Under any injective naming, writing a product's record replaces the content of that product's file and of no other file. |
| LegacyStore.OnDiskLookup | cached-inventory/CachedInventory/CachedInventory/WarehouseStockSystemClient.cs:78-80 | The file named after a product exists exactly when the product has a record, and it holds that record. |
| LegacyStore.OnDiskAfterWrite | cached-inventory/CachedInventory/CachedInventory/WarehouseStockSystemClient.cs:74-75 | An update replaces the content of exactly one file, the one named after the product, with `LegacyStock(productId, newAmount)`; all other files stay as they were. |
| LegacyStore.ReadStock | cached-inventory/CachedInventory/CachedInventory/WarehouseStockSystemClient.cs:55-60 | The amount of the product's record; 0 when there is no record and 0 when the record is unreadable. |
| LegacyStore.WriteStock | cached-inventory/CachedInventory/CachedInventory/WarehouseStockSystemClient.cs:71-76 | After a write, the product reads back as the new amount; every other product reads as before; one record is added or replaced. |
| LegacyStore.LastWrite | cached-inventory/CachedInventory/CachedInventory/WarehouseStockSystemClient.cs:71-76 | It finds a write to a product exactly when one exists, and the value it returns is that of a write to the product after which no write touches it: the last one. |
| LegacyStore.ReadAfterWrites | cached-inventory/CachedInventory/CachedInventory/WarehouseStockSystemClient.cs:50-76 | After any sequence of updates, a product reads as its last update, or as before when no update touched it. |
| LegacyStore.NeverWrittenReadsZero | cached-inventory/CachedInventory/CachedInventory/WarehouseStockSystemClient.cs:55-60 | In a store that starts empty, a product that was never written reads as 0. |
| LegacyStore.LastWriteWins | cached-inventory/CachedInventory/CachedInventory/WarehouseStockSystemClient.cs:74-75 | `UpdateStock(p, a)` then `UpdateStock(p, b)` reads back `b`, and leaves the same store as `UpdateStock(p, b)` alone. |
| LegacyStore.WarehouseStockSystemClient.constructor | cached-inventory/CachedInventory/CachedInventory/WarehouseStockSystemClient.cs:43 | The storage directory is `LEGACY_FILE_STORAGE` when set and "./" otherwise. |
| LegacyStore.WarehouseStockSystemClient.GetStock | cached-inventory/CachedInventory/CachedInventory/WarehouseStockSystemClient.cs:50-61 | Total: it returns the stored amount, and 0 when the record is missing or unreadable. |
| LegacyStore.WarehouseStockSystemClient.UpdateStock | cached-inventory/CachedInventory/CachedInventory/WarehouseStockSystemClient.cs:71-76 | The product's record becomes `LegacyStock(productId, newAmount)`: its stock reads `newAmount`, and every other product's stock is unchanged. |
| InventoryApi.RetrieveOutcome | cached-inventory/CachedInventory/CachedInventory/CachedInventoryApiBuilder.cs:38-45 | BadRequest("Not enough stock.") exactly when stock < amount, with the store unchanged. Otherwise Ok, with the stock set to the wrapped `stock - amount`, which is the exact, non-negative difference when `amount >= 0`. No other product changes. |
| InventoryApi.RestockOutcome | cached-inventory/CachedInventory/CachedInventory/CachedInventoryApiBuilder.cs:55-57 | Always Ok, given a store write that succeeds. The stock becomes the wrapped `amount + stock`, which is the exact sum when it fits and `amount >= 0`. No other product changes. |
| InventoryApi.GetStock | cached-inventory/CachedInventory/CachedInventory/CachedInventoryApiBuilder.cs:28-30 | Returns the stored stock (0 for a missing record) and modifies nothing. |
| InventoryApi.RetrieveStock | cached-inventory/CachedInventory/CachedInventory/CachedInventoryApiBuilder.cs:34-46 | The handler's result and the store it leaves are those of `RetrieveOutcome` on the old store. |
| InventoryApi.Restock | cached-inventory/CachedInventory/CachedInventory/CachedInventoryApiBuilder.cs:51-58 | The handler's result and the store it leaves are those of `RestockOutcome` on the old store. |
| InventoryApi.Sum | cached-inventory/CachedInventory/CachedInventory.Tests/AppTest.cs:40 | The total of non-negative amounts is non-negative. |
| InventoryApi.RetrieveEach | cached-inventory/CachedInventory/CachedInventory.Tests/AppTest.cs:43-52 | A series of retrieve requests for one product, handled one after another, gives one answer per request, and the first answer is the one the first request gets on its own from the starting records. |
| InventoryApi.RetrieveEachTouchesOneProduct | cached-inventory/CachedInventory/CachedInventory.Tests/AppTest.cs:43-52 | Every answer of such a series is Ok or BadRequest("Not enough stock."), and no other product's stock changes. |
| InventoryApi.RetrieveEachAllRejected | cached-inventory/CachedInventory/CachedInventory.Tests/AppTest.cs:43-52 | When every request of such a series is rejected, the store is left exactly as it was. |
| InventoryApi.RetrieveEachDrains | cached-inventory/CachedInventory/CachedInventory.Tests/AppTest.cs:43-56 | Sequential retrievals of non-negative amounts that add up to the current stock all answer Ok and leave the stock at 0. |
| InventoryApi.RestockThenRetrieveEach | cached-inventory/CachedInventory/CachedInventory.Tests/AppTest.cs:37-56 | Restock a product by any non-negative `topUp` that brings its stock to the sum of the amounts (from stock 0 the whole sum, or the difference the test setup tops up by), then retrieve each amount in turn: every request answers Ok and the stock ends at 0. |
| ProductCache.Producto.constructor | cached-inventory/CachedInventory/CachedInventory/Cache.cs:81-86 | A new product holds the given id, name and quantity. |
| ProductCache.ProductNameCarriesId | cached-inventory/CachedInventory/CachedInventory/Cache.cs:58 | A product's name is "Producto " followed by text that reads back as the product's id. |
| ProductCache.Catalog | cached-inventory/CachedInventory/CachedInventory/Cache.cs:54-59 | The refreshed list holds products 1..n in order. Product k is named "Producto k" and holds the store's stock of k. The ids are distinct. |
| ProductCache.FirstIndex | cached-inventory/CachedInventory/CachedInventory/Cache.cs:39 | The position of the first product with the id, or none exactly when no product has it. |
| ProductCache.FirstOrDefault | cached-inventory/CachedInventory/CachedInventory/Cache.cs:39 | Null exactly when no product has the id; otherwise the product at the first position that has it. |
| ProductCache.FirstOrDefaultFindsFirstIndex | cached-inventory/CachedInventory/CachedInventory/Cache.cs:39 | On the objects, `FirstOrDefault` picks the product at the first matching position of their values. |
| ProductCache.Withdraw | cached-inventory/CachedInventory/CachedInventory/Cache.cs:39-48 | A withdrawal keeps the list's length (its full effect is stated by `WithdrawSpec`). |
| ProductCache.WithdrawSpec | cached-inventory/CachedInventory/CachedInventory/Cache.cs:39-48 | A withdrawal succeeds exactly when the first product with the id has at least `c`. On success, only that product changes: its quantity becomes the wrapped `quantity - c`. On failure, nothing changes. |
| ProductCache.WithdrawSucceedsIff | cached-inventory/CachedInventory/CachedInventory/Cache.cs:39-40 | With distinct ids, a withdrawal succeeds exactly when some cached product has the id and at least `c`. |
| ProductCache.WithdrawKeepsIdsAndNames | cached-inventory/CachedInventory/CachedInventory/Cache.cs:39-43 | A withdrawal keeps the list's length and order and every id and name. |
| ProductCache.WithdrawKeepsDistinctIds | cached-inventory/CachedInventory/CachedInventory/Cache.cs:39-43 | A withdrawal preserves distinct ids. |
| ProductCache.WithdrawKeepsStockNonNegative | cached-inventory/CachedInventory/CachedInventory/Cache.cs:40-42 | With non-negative stock and a non-negative amount, every quantity stays non-negative. Each quantity is unchanged or lowered by exactly `c`. |
| ProductCache.SyncWrites | cached-inventory/CachedInventory/CachedInventory/Cache.cs:74-77 | A synchronisation makes one `UpdateStock(id, quantity)` call per cached product, in list order. |
| ProductCache.SyncStoresEveryProduct | cached-inventory/CachedInventory/CachedInventory/Cache.cs:74-77 | With distinct ids, after a synchronisation every cached product reads back from the store as its cached quantity. |
| ProductCache.SyncLeavesOthers | cached-inventory/CachedInventory/CachedInventory/Cache.cs:74-77 | A synchronisation leaves the stock of every product that is not cached unchanged. |
| ProductCache.RefreshThenSyncChangesNoStock | cached-inventory/CachedInventory/CachedInventory/Cache.cs:52-77 | Synchronising a freshly refreshed list leaves every product's stock as it was. |
| ProductCache.Cache.constructor | cached-inventory/CachedInventory/CachedInventory/Cache.cs:16-19 | The new cache holds the catalogue of the client's store, loaded at the given time, and satisfies the cache invariant. |
| ProductCache.Cache.ObtenerProductos | cached-inventory/CachedInventory/CachedInventory/Cache.cs:23-33 | When the list is more than 30 minutes old, it is rebuilt from the store and the refresh time is recorded. Otherwise the list, its contents and the refresh time are unchanged. Either way it returns the cached list. |
| ProductCache.Cache.ActualizarStock | cached-inventory/CachedInventory/CachedInventory/Cache.cs:34-51 | The answer and the new product values are those of `Withdraw` on the old values. The list itself (its objects and their order) and the refresh time are unchanged, and the cache invariant holds. |
| ProductCache.Cache.RefrescarCache | cached-inventory/CachedInventory/CachedInventory/Cache.cs:52-66 | The cache now holds a new list of fresh products equal to `Catalog` of the store, the refresh time is now, and the list is returned. |
| ProductCache.Cache.LoadProducts | cached-inventory/CachedInventory/CachedInventory/Cache.cs:54-59 | The loop builds distinct fresh products whose values are `Catalog` of the store. |
| ProductCache.Cache.SincronizarConSistemaAntiguo | cached-inventory/CachedInventory/CachedInventory/Cache.cs:67-78 | The store becomes the old store after `SyncWrites` of the cached values. Every cached product reads back as its quantity, every other product is unchanged, and the cache is not modified. |

## Left out

- JSON serialisation, file reads and writes, and the 2.5 s `WaitForDatabase` delay are left out. A record is a `StoredRecord`: `Unreadable` stands for every content the JSON reader rejects or turns into null.
- A one-off failure while reading a good record (WarehouseStockSystemClient.cs:57-60 turns it into 0) is representable only as that record being `Unreadable`. So the data-loss path it opens is captured only in that form: a retrieve or restock that follows overwrites the good record based on a stock of 0.
- LegacyStore.WarehouseStockSystemClient.UpdateStock: modelled as always succeeding. In the source `File.WriteAllTextAsync` (WarehouseStockSystemClient.cs:75) can throw, for example on a missing directory or a full disk. The model does not capture three consequences of that. A retrieve or restock whose write throws ends in an unhandled exception (HTTP 500) instead of Ok (CachedInventoryApiBuilder.cs:44 and :56). A synchronisation stops after the products already written (Cache.cs:74-77). A write that fails part-way can leave a truncated record, which then reads as 0.
- InventoryApi.RestockOutcome: "always Ok" and InventoryApi.RetrieveOutcome's Ok rest on that same assumption that the store write succeeds.
- `GetStockDirectlyFromFile` is left out. It is a test-only back door that throws where `GetStock` yields 0.
- HTTP routing, Swagger, dependency injection, `UseHttpsRedirection` and `Program.cs` are left out. Only the handler bodies are modelled.
- The `Timer` that runs a synchronisation every 10 seconds, `lock (cacheLock)`, `async`/`await` and `.Result` are left out. Each method is one atomic sequential step, so races between concurrent requests (the endpoints' unguarded read-then-write) and between the timer and the cache are not modelled.
- ProductCache.Cache.ObtenerProductos: in the source, the stale branch does not return. It blocks on `RefrescarCache().Result` while holding `lock (cacheLock)` (Cache.cs:25-29). `RefrescarCache` resumes after its first `await` on another thread and then waits for the same lock (Cache.cs:60), so the two threads deadlock. The model gives the intended refresh, and its contract describes that refresh, not the hang. The constructor's refresh (Cache.cs:19) holds no lock and is unaffected.
- ProductCache.Cache.ObtenerProductos: the `productosCache == null` test is not modelled. The constructor always assigns the list before any method can run, so that branch is never taken.
- `DateTime.AddMinutes` overflowing `DateTime.MaxValue` (an exception in .NET) is not modelled. The clock is an unbounded tick count.
- The cached list is a `seq<Producto>` value, so aliasing of the `List<Producto>` object itself is not modelled. The `Producto` objects are shared as in the source: the copy made by the synchronisation reads the same objects.
- `Path.Combine` is modelled as on a Unix host ('/' separator), for the relative, non-empty file name the template produces. Windows separators and a rooted `LEGACY_FILE_STORAGE` beyond its plain prefix are not modelled.
- `int.ToString()` is modelled for the invariant culture (a leading '-' for negative numbers).
- DotNetInt.Wrap: defined only for the exact results of one `int + int` or `int - int`, which are the only places the source relies on wrap-around.
- InventoryApi.RetrieveOutcome: the non-negativity of the new stock is stated only for `amount >= 0`. With a negative amount the C# subtraction can overflow and wrap to a negative value.
- ProductCache.WithdrawKeepsStockNonNegative: requires `0 <= c`. With a negative amount the in-place decrement can wrap.
- ProductCache.WithdrawSucceedsIff: requires distinct ids (which `Cache.Valid` keeps). Without them, only the first product with the id is consulted, as `WithdrawSpec` states.
- No debounced write-back, per-product lock table or load-on-miss is modelled, because the code has none. The code's cache is not wired into the endpoints: the endpoints read and write the store directly.

=== FILE: dotnet_int.dfy ===
/**
 * The two pieces of .NET integer behaviour the inventory code relies on:
 * unchecked 32-bit `int` arithmetic and `int.ToString()`.
 */
module DotNetInt {

  const MinInt32: int := -0x8000_0000
  const MaxInt32: int := 0x7fff_ffff

  /** C#'s `int`. */
  type Int32 = x: int | MinInt32 <= x <= MaxInt32

  /**
   * The value an unchecked C# `int` addition or subtraction yields for the
   * mathematical value `x` (which, for two `int` operands, lies in
   * [-2^32, 2^32)): two's-complement wrap-around modulo 2^32.
   */
  function Wrap(x: int): (r: Int32)
    requires -0x1_0000_0000 <= x < 0x1_0000_0000
    ensures MinInt32 <= x <= MaxInt32 ==> r == x
    ensures r == x || r == x - 0x1_0000_0000 || r == x + 0x1_0000_0000
  {
    if x < MinInt32 then x + 0x1_0000_0000
    else if x > MaxInt32 then x - 0x1_0000_0000
    else x
  }

  function DigitChar(d: int): (c: char)
    requires 0 <= d < 10
    ensures '0' <= c <= '9'
  {
    ('0' as int + d) as char
  }

  predicate IsDigits(s: string) {
    forall i :: 0 <= i < |s| ==> '0' <= s[i] <= '9'
  }

  /** Decimal digits of a natural number, most significant first, without leading zeros. */
  function NatToDecimal(n: nat): (s: string)
    ensures |s| >= 1 && IsDigits(s)
    ensures n >= 10 ==> s[0] != '0'
  {
    if n < 10 then [DigitChar(n)] else NatToDecimal(n / 10) + [DigitChar(n % 10)]
  }

  /** `int.ToString()` under a culture whose negative sign is "-". */
  function ToString(n: int): (s: string)
    ensures |s| >= 1
    ensures s[0] == '-' <==> n < 0
    ensures var digits := if n < 0 then s[1..] else s;
            |digits| >= 1 && IsDigits(digits) && (|digits| > 1 ==> digits[0] != '0')
  {
    if n < 0 then "-" + NatToDecimal(-n) else NatToDecimal(n)
  }

  /** Reads a string of decimal digits back as a number (the inverse of NatToDecimal). */
  function ParseDigits(s: string): int {
    if s == [] then 0 else ParseDigits(s[..|s| - 1]) * 10 + (s[|s| - 1] as int - '0' as int)
  }

  /** Reads an optional "-" followed by decimal digits (the inverse of ToString). */
  function Parse(s: string): int {
    if |s| > 0 && s[0] == '-' then -ParseDigits(s[1..]) else ParseDigits(s)
  }

  lemma {:induction false} ParseNatToDecimal(n: nat)
    ensures ParseDigits(NatToDecimal(n)) == n
  {
    if n >= 10 {
      var s := NatToDecimal(n);
      assert s[..|s| - 1] == NatToDecimal(n / 10);
      ParseNatToDecimal(n / 10);
    }
  }

  /** Parsing what ToString printed gives the number back. */
  lemma ParseToString(n: int)
    ensures Parse(ToString(n)) == n
  {
    if n < 0 {
      var digits := NatToDecimal(-n);
      assert ToString(n) == "-" + digits;
      assert ("-" + digits)[1..] == digits;
      ParseNatToDecimal(-n);
    } else {
      var digits := NatToDecimal(n);
      assert '0' <= digits[0] <= '9';
      ParseNatToDecimal(n);
    }
  }

  /** Distinct numbers print differently. */
  lemma ToStringInjective(a: int, b: int)
    ensures ToString(a) == ToString(b) ==> a == b
  {
    ParseToString(a);
    ParseToString(b);
  }
}

=== FILE: inventory_api.dfy ===
/**
 * The three stock endpoints: get, retrieve and restock. Each handler reads
 * the product's stock from the legacy store and, for retrieve and restock,
 * overwrites it. Each is specified by a function from the store's records
 * to the HTTP result and the new records.
 */
module InventoryApi {
  import opened DotNetInt
  import opened LegacyStore

  datatype RetrieveStockRequest = RetrieveStockRequest(productId: Int32, amount: Int32)
  datatype RestockRequest = RestockRequest(productId: Int32, amount: Int32)

  /** The results the handlers produce (`Results.Ok()` and `Results.BadRequest(message)`). */
  datatype HttpResult = Ok | BadRequest(message: string)

  const NotEnoughStock: string := "Not enough stock."

  /** The answers the retrieve endpoint can give. */
  const Answers: set<HttpResult> := {Ok, BadRequest(NotEnoughStock)}

  /** What a handler answers and the records it leaves behind. */
  datatype Handled = Handled(result: HttpResult, records: Records)

  /** The retrieve endpoint: take `amount` units of `productId` out of stock, if there are enough. */
  function RetrieveOutcome(records: Records, req: RetrieveStockRequest): (h: Handled)
    ensures h.result.BadRequest? <==> ReadStock(records, req.productId) < req.amount
    ensures h.result.BadRequest? ==> h.result.message == NotEnoughStock && h.records == records
    ensures h.result.Ok? ==>
              ReadStock(h.records, req.productId)
              == Wrap(ReadStock(records, req.productId) - req.amount)
    ensures h.result.Ok? && 0 <= req.amount ==>
              0 <= ReadStock(h.records, req.productId)
                 == ReadStock(records, req.productId) - req.amount
    ensures forall q :: q != req.productId ==> ReadStock(h.records, q) == ReadStock(records, q)
  {
    var stock := ReadStock(records, req.productId);
    if stock < req.amount then Handled(BadRequest(NotEnoughStock), records)
    else Handled(Ok, WriteStock(records, req.productId, Wrap(stock - req.amount)))
  }

  /** The restock endpoint: add `amount` units to the stock of `productId`. */
  function RestockOutcome(records: Records, req: RestockRequest): (h: Handled)
    ensures h.result == Ok
    ensures ReadStock(h.records, req.productId)
            == Wrap(req.amount + ReadStock(records, req.productId))
    ensures req.amount + ReadStock(records, req.productId) <= MaxInt32 && 0 <= req.amount ==>
              ReadStock(h.records, req.productId) == ReadStock(records, req.productId) + req.amount
    ensures forall q :: q != req.productId ==> ReadStock(h.records, q) == ReadStock(records, q)
  {
    var stock := ReadStock(records, req.productId);
    Handled(Ok, WriteStock(records, req.productId, Wrap(req.amount + stock)))
  }

  /** GET /stock/{productId}: the stock as the store reports it; changes nothing. */
  method GetStock(client: WarehouseStockSystemClient, productId: Int32) returns (stock: Int32)
    ensures stock == ReadStock(client.records, productId)
  {
    stock := client.GetStock(productId);
  }

  /** POST /stock/retrieve. */
  method RetrieveStock(client: WarehouseStockSystemClient, req: RetrieveStockRequest) returns (result: HttpResult)
    modifies client
    ensures Handled(result, client.records) == RetrieveOutcome(old(client.records), req)
  {
    var stock := client.GetStock(req.productId);
    if stock < req.amount {
      return BadRequest(NotEnoughStock);
    }
    client.UpdateStock(req.productId, Wrap(stock - req.amount));
    return Ok;
  }

  /** POST /stock/restock. */
  method Restock(client: WarehouseStockSystemClient, req: RestockRequest) returns (result: HttpResult)
    modifies client
    ensures Handled(result, client.records) == RestockOutcome(old(client.records), req)
  {
    var stock := client.GetStock(req.productId);
    client.UpdateStock(req.productId, Wrap(req.amount + stock));
    return Ok;
  }

  function Sum(amounts: seq<Int32>): (total: int)
    ensures (forall i :: 0 <= i < |amounts| ==> 0 <= amounts[i]) ==> 0 <= total
  {
    if amounts == [] then 0 else amounts[0] + Sum(amounts[1..])
  }

  /** What a series of retrieve requests for one product, handled one after another, answers and leaves. */
  datatype Run = Run(results: seq<HttpResult>, records: Records)

  function RetrieveEach(records: Records, productId: Int32, amounts: seq<Int32>): (run: Run)
    ensures |run.results| == |amounts|
    ensures amounts != [] ==>
              run.results[0] == RetrieveOutcome(records, RetrieveStockRequest(productId, amounts[0])).result
    decreases amounts
  {
    if amounts == [] then Run([], records)
    else
      var first := RetrieveOutcome(records, RetrieveStockRequest(productId, amounts[0]));
      var rest := RetrieveEach(first.records, productId, amounts[1..]);
      Run([first.result] + rest.results, rest.records)
  }

  /** A series of retrievals answers only Ok or "Not enough stock." and changes the stock of no other product. */
  lemma {:induction false} RetrieveEachTouchesOneProduct(records: Records, productId: Int32, amounts: seq<Int32>)
    ensures forall i :: 0 <= i < |amounts| ==> RetrieveEach(records, productId, amounts).results[i] in Answers
    ensures forall q :: q != productId ==> ReadStock(RetrieveEach(records, productId, amounts).records, q) == ReadStock(records, q)
    decreases amounts
  {
    if amounts != [] {
      var first := RetrieveOutcome(records, RetrieveStockRequest(productId, amounts[0]));
      var rest := RetrieveEach(first.records, productId, amounts[1..]);
      RetrieveEachTouchesOneProduct(first.records, productId, amounts[1..]);
      var run := RetrieveEach(records, productId, amounts);
      assert run.results == [first.result] + rest.results;
      forall i | 0 <= i < |amounts|
        ensures run.results[i] in Answers
      {
        if i == 0 {
          assert run.results[i] == first.result;
        } else {
          assert run.results[i] == rest.results[i - 1];
        }
      }
    }
  }

  /** A series of retrievals that are all rejected leaves the store as it was. */
  lemma {:induction false} RetrieveEachAllRejected(records: Records, productId: Int32, amounts: seq<Int32>)
    requires forall i :: 0 <= i < |amounts| ==> RetrieveEach(records, productId, amounts).results[i].BadRequest?
    ensures RetrieveEach(records, productId, amounts).records == records
    decreases amounts
  {
    if amounts != [] {
      var first := RetrieveOutcome(records, RetrieveStockRequest(productId, amounts[0]));
      var rest := RetrieveEach(first.records, productId, amounts[1..]);
      var run := RetrieveEach(records, productId, amounts);
      assert run.results == [first.result] + rest.results;
      assert run.results[0] == first.result;
      assert first.records == records;
      forall i | 0 <= i < |rest.results|
        ensures rest.results[i].BadRequest?
      {
        assert rest.results[i] == run.results[i + 1];
      }
      RetrieveEachAllRejected(first.records, productId, amounts[1..]);
    }
  }

  /** Retrievals whose amounts add up exactly to the stock all succeed and leave the stock at 0. */
  lemma {:induction false} RetrieveEachDrains(records: Records, productId: Int32, amounts: seq<Int32>)
    requires forall i :: 0 <= i < |amounts| ==> 0 <= amounts[i]
    requires ReadStock(records, productId) == Sum(amounts)
    ensures forall i :: 0 <= i < |amounts| ==> RetrieveEach(records, productId, amounts).results[i] == Ok
    ensures ReadStock(RetrieveEach(records, productId, amounts).records, productId) == 0
    decreases amounts
  {
    if amounts != [] {
      assert 0 <= Sum(amounts[1..]);
      var first := RetrieveOutcome(records, RetrieveStockRequest(productId, amounts[0]));
      assert first.result == Ok;
      RetrieveEachDrains(first.records, productId, amounts[1..]);
    }
  }

  /**
   * The sequential test scenario: a product is topped up by `topUp`, which
   * brings its stock to the sum of the retrievals, then every retrieval is
   * made in turn. Every one succeeds and the stock ends at 0.
   */
  lemma RestockThenRetrieveEach(records: Records, productId: Int32, amounts: seq<Int32>, topUp: Int32)
    requires forall i :: 0 <= i < |amounts| ==> 0 <= amounts[i]
    requires Sum(amounts) <= MaxInt32
    requires 0 <= topUp && ReadStock(records, productId) + topUp == Sum(amounts)
    ensures var restocked := RestockOutcome(records, RestockRequest(productId, topUp));
            var run := RetrieveEach(restocked.records, productId, amounts);
            restocked.result == Ok &&
            (forall i :: 0 <= i < |amounts| ==> run.results[i] == Ok) &&
            ReadStock(run.records, productId) == 0
  {
    var restocked := RestockOutcome(records, RestockRequest(productId, topUp));
    RetrieveEachDrains(restocked.records, productId, amounts);
  }
}

=== FILE: legacy_store.dfy ===
/**
 * The legacy warehouse stock system as its client sees it: one record per
 * product, kept in a file whose name is derived from the product id.
 * Reading a product whose record is missing or cannot be read yields 0;
 * writing a product overwrites that product's record only.
 */
module LegacyStore {
  import opened Wrappers
  import opened DotNetInt

  /** Storage directory used when LEGACY_FILE_STORAGE is not set. */
  const DefaultStorage: string := "./"
  /** The file-name template "stock-{id}.json", split around its "{id}" placeholder. */
  const TemplateHead: string := "stock-"
  const TemplateTail: string := ".json"

  /**
   * What a record file holds: the serialised `LegacyStock(ProductId, Amount)`, or
   * anything the JSON reader rejects or turns into null.
   */
  datatype StoredRecord = LegacyStock(productId: Int32, amount: Int32) | Unreadable

  /** One `UpdateStock(productId, newAmount)` call. */
  datatype Write = Write(productId: Int32, newAmount: Int32)

  /** `Path.Combine(dir, name)` on a Unix host, for a `name` that is not empty and not rooted. */
  function Combine(dir: string, name: string): (path: string)
    ensures dir <= path
    ensures |name| <= |path| && path[|path| - |name|..] == name
    ensures |path| <= |dir| + 1 + |name|
    ensures path == dir + name || path == dir + "/" + name
    ensures path == dir + name ==> dir == [] || dir[|dir| - 1] == '/'
    ensures |path| == |name| || path[|path| - |name| - 1] == '/'
  {
    if dir == [] then name
    else if dir[|dir| - 1] == '/' then dir + name
    else dir + "/" + name
  }

  /** The file holding the record of `productId`. */
  function FileName(storage: string, productId: int): (name: string)
    ensures storage <= name
    ensures var local := TemplateHead + ToString(productId) + TemplateTail;
            |local| <= |name| && name[|name| - |local|..] == local &&
            (|name| == |local| || name[|name| - |local| - 1] == '/')
  {
    var local := TemplateHead + ToString(productId) + TemplateTail;
    Combine(storage, local)
  }

  /** Joining one directory to two names gives the same path only for the same name. */
  lemma CombineCancel(dir: string, a: string, b: string)
    requires Combine(dir, a) == Combine(dir, b)
    ensures a == b
  {
    var prefix := if dir == [] || dir[|dir| - 1] == '/' then dir else dir + "/";
    assert Combine(dir, a)[|prefix|..] == a;
    assert Combine(dir, b)[|prefix|..] == b;
  }

  /** Distinct product ids are kept in distinct files. */
  lemma FileNameInjective(storage: string, p: int, q: int)
    ensures FileName(storage, p) == FileName(storage, q) ==> p == q
  {
    if FileName(storage, p) == FileName(storage, q) {
      var np := TemplateHead + ToString(p) + TemplateTail;
      var nq := TemplateHead + ToString(q) + TemplateTail;
      CombineCancel(storage, np, nq);
      assert ToString(p) == np[|TemplateHead|..|np| - |TemplateTail|];
      assert ToString(q) == nq[|TemplateHead|..|nq| - |TemplateTail|];
      ToStringInjective(p, q);
    }
  }

  /**
   * The record files, each under the product id its name is derived from.
   * Keying by id loses nothing because FileName is injective: OnDisk gives the
   * files by name.
   */
  type Records = map<Int32, StoredRecord>

  /** `name` gives distinct product ids distinct file names. */
  ghost predicate Injective(name: Int32 -> string) {
    forall p, q :: name(p) == name(q) ==> p == q
  }

  /** The file names of one storage directory, as a function of the product id. */
  function Naming(storage: string): (name: Int32 -> string)
    ensures forall p: Int32 :: name(p) == FileName(storage, p)
    ensures Injective(name)
  {
    forall p: Int32, q: Int32 | FileName(storage, p) == FileName(storage, q)
      ensures p == q
    {
      FileNameInjective(storage, p, q);
    }
    p => FileName(storage, p)
  }

  /** Records keyed by id, re-keyed by the names an injective `name` gives the ids. */
  function Rename(records: Records, name: Int32 -> string): map<string, StoredRecord>
    requires Injective(name)
  {
    map p | p in records :: name(p) := records[p]
  }

  /** The storage directory's content, by file name. */
  function OnDisk(records: Records, storage: string): map<string, StoredRecord> {
    Rename(records, Naming(storage))
  }

  /** Under an injective naming, a product's file exists exactly when it has a record, and holds that record. */
  lemma RenameLookup(records: Records, name: Int32 -> string, productId: Int32)
    requires Injective(name)
    ensures name(productId) in Rename(records, name) <==> productId in records
    ensures productId in records ==> Rename(records, name)[name(productId)] == records[productId]
  {
  }

  /** Under an injective naming, a write replaces the content of the written product's file only. */
  lemma RenameAfterWrite(records: Records, name: Int32 -> string, productId: Int32, newAmount: Int32)
    requires Injective(name)
    ensures Rename(records[productId := LegacyStock(productId, newAmount)], name)
            == Rename(records, name)[name(productId) := LegacyStock(productId, newAmount)]
  {
    var after := Rename(records[productId := LegacyStock(productId, newAmount)], name);
    var expected := Rename(records, name)[name(productId) := LegacyStock(productId, newAmount)];
    assert after.Keys == expected.Keys by {
      RenameAfterWriteKeys(records, name, productId, newAmount);
    }
    assert forall n :: n in after ==> after[n] == expected[n] by {
      forall n | n in after
        ensures after[n] == expected[n]
      {
        RenameAfterWriteValue(records, name, productId, newAmount, n);
      }
    }
  }

  lemma RenameAfterWriteKeys(records: Records, name: Int32 -> string, productId: Int32, newAmount: Int32)
    requires Injective(name)
    ensures Rename(records[productId := LegacyStock(productId, newAmount)], name).Keys
            == Rename(records, name).Keys + {name(productId)}
  {
    var written := records[productId := LegacyStock(productId, newAmount)];
    RenameKeys(written, name);
    RenameKeys(records, name);
    assert written.Keys == records.Keys + {productId};
  }

  /** The names of the files are the names of the product ids that have records. */
  lemma RenameKeys(records: Records, name: Int32 -> string)
    requires Injective(name)
    ensures Rename(records, name).Keys == set p | p in records :: name(p)
  {
  }

  lemma RenameAfterWriteValue(records: Records, name: Int32 -> string, productId: Int32, newAmount: Int32, n: string)
    requires Injective(name)
    requires n in Rename(records[productId := LegacyStock(productId, newAmount)], name)
    ensures n in Rename(records, name)[name(productId) := LegacyStock(productId, newAmount)]
    ensures Rename(records[productId := LegacyStock(productId, newAmount)], name)[n]
            == Rename(records, name)[name(productId) := LegacyStock(productId, newAmount)][n]
  {
    var written := records[productId := LegacyStock(productId, newAmount)];
    var p :| p in written && name(p) == n;
    if p != productId {
      assert p in records;
      assert n != name(productId);
    }
  }

  /** The file named after `productId` exists exactly when the product has a record, and holds that record. */
  lemma OnDiskLookup(records: Records, storage: string, productId: Int32)
    ensures FileName(storage, productId) in OnDisk(records, storage) <==> productId in records
    ensures productId in records ==> OnDisk(records, storage)[FileName(storage, productId)] == records[productId]
  {
    RenameLookup(records, Naming(storage), productId);
  }

  /** `UpdateStock(p, n)` writes one file, the one named after `p`, and leaves every other file as it was. */
  lemma OnDiskAfterWrite(records: Records, storage: string, productId: Int32, newAmount: Int32)
    ensures OnDisk(WriteStock(records, productId, newAmount), storage)
            == OnDisk(records, storage)[FileName(storage, productId) := LegacyStock(productId, newAmount)]
  {
    RenameAfterWrite(records, Naming(storage), productId, newAmount);
  }

  /** `GetStock`'s answer: the stored amount, or 0 when the record is missing or unreadable. */
  function ReadStock(records: Records, productId: int): (amount: Int32)
    ensures productId !in records ==> amount == 0
    ensures productId in records && records[productId].Unreadable? ==> amount == 0
    ensures productId in records && records[productId].LegacyStock? ==> amount == records[productId].amount
  {
    if productId in records && records[productId].LegacyStock? then records[productId].amount else 0
  }

  /** The records after `UpdateStock(productId, newAmount)`. */
  function WriteStock(records: Records, productId: Int32, newAmount: Int32): (r: Records)
    ensures ReadStock(r, productId) == newAmount
    ensures forall q :: q != productId ==> ReadStock(r, q) == ReadStock(records, q)
    ensures r.Keys == records.Keys + {productId}
  {
    records[productId := LegacyStock(productId, newAmount)]
  }

  /** The records after a sequence of `UpdateStock` calls, made in order. */
  function ApplyWrites(records: Records, writes: seq<Write>): Records {
    if writes == [] then records
    else
      var last := writes[|writes| - 1];
      WriteStock(ApplyWrites(records, writes[..|writes| - 1]), last.productId, last.newAmount)
  }

  /** The amount of the last write to `productId` in `writes`, if any. */
  function LastWrite(writes: seq<Write>, productId: int): (r: Option<Int32>)
    ensures r.None? <==> forall i :: 0 <= i < |writes| ==> writes[i].productId != productId
    ensures r.Some? ==> exists i :: 0 <= i < |writes| && writes[i] == Write(productId, r.value) &&
                                    forall j :: i < j < |writes| ==> writes[j].productId != productId
  {
    if writes == [] then None
    else if writes[|writes| - 1].productId == productId then Some(writes[|writes| - 1].newAmount)
    else LastWrite(writes[..|writes| - 1], productId)
  }

  /** After a sequence of writes, a product reads as its last write, or as before if none touched it. */
  lemma {:induction false} ReadAfterWrites(records: Records, writes: seq<Write>, productId: int)
    ensures ReadStock(ApplyWrites(records, writes), productId)
            == match LastWrite(writes, productId)
               case Some(a) => a
               case None => ReadStock(records, productId)
  {
    if writes != [] {
      ReadAfterWrites(records, writes[..|writes| - 1], productId);
    }
  }

  /** A product never written, in a store that started without files, reads as 0. */
  lemma NeverWrittenReadsZero(writes: seq<Write>, productId: int)
    requires forall i :: 0 <= i < |writes| ==> writes[i].productId != productId
    ensures ReadStock(ApplyWrites(map[], writes), productId) == 0
  {
    ReadAfterWrites(map[], writes, productId);
  }

  /** Of two writes to the same product, the second one wins. */
  lemma LastWriteWins(records: Records, productId: Int32, a: Int32, b: Int32)
    ensures ReadStock(WriteStock(WriteStock(records, productId, a), productId, b), productId) == b
    ensures WriteStock(WriteStock(records, productId, a), productId, b) == WriteStock(records, productId, b)
  {
  }

  /**
   * The client of the legacy system. `records` is the content of the storage
   * directory; `storage` is the directory, fixed when the client is created.
   */
  class WarehouseStockSystemClient {
    const storage: string
    var records: Records

    /** `legacyFileStorage` is the value of the LEGACY_FILE_STORAGE environment variable, if set. */
    constructor (legacyFileStorage: Option<string>, existing: Records)
      ensures storage == (if legacyFileStorage.Some? then legacyFileStorage.value else DefaultStorage)
      ensures records == existing
    {
      storage := if legacyFileStorage.Some? then legacyFileStorage.value else DefaultStorage;
      records := existing;
    }

    /** Reads the stock of a product; never fails (a missing or unreadable record reads as 0). */
    method GetStock(productId: Int32) returns (amount: Int32)
      ensures amount == ReadStock(records, productId)
      ensures productId !in records ==> amount == 0
    {
      if productId in records {
        match records[productId]
        case LegacyStock(_, a) => amount := a;
        case Unreadable => amount := 0;
      } else {
        amount := 0;
      }
    }

    /** Overwrites the record of `productId` with `newAmount`. */
    method UpdateStock(productId: Int32, newAmount: Int32)
      modifies this
      ensures records == WriteStock(old(records), productId, newAmount)
      ensures ReadStock(records, productId) == newAmount
      ensures forall q :: q != productId ==> ReadStock(records, q) == old(ReadStock(records, q))
    {
      records := records[productId := LegacyStock(productId, newAmount)];
    }
  }
}

=== FILE: product_cache.dfy ===
/**
 * The in-memory product cache: a list of products loaded from the legacy
 * store, refreshed when older than 30 minutes, decremented in place, and
 * written back to the store product by product.
 */
module ProductCache {
  import opened Wrappers
  import opened DotNetInt
  import opened LegacyStore

  /** The cache loads the products with ids 1 to 5. */
  const ProductCount: nat := 5
  /** `DateTime` ticks (of 100 ns) in one minute. */
  const TicksPerMinute: int := 600_000_000
  /** A loaded list is refreshed once it is more than 30 minutes old. */
  const MaxAge: int := 30 * TicksPerMinute

  /** The value of a `Producto` at one moment. */
  datatype ProductView = ProductView(productId: Int32, nombre: string, cantidad: Int32)

  /** A cached product; `cantidad` is decremented in place. */
  class Producto {
    var productId: Int32
    var nombre: string
    var cantidad: Int32

    constructor (productId: Int32, nombre: string, cantidad: Int32)
      ensures View() == ProductView(productId, nombre, cantidad)
    {
      this.productId := productId;
      this.nombre := nombre;
      this.cantidad := cantidad;
    }

    function View(): ProductView
      reads this
    {
      ProductView(productId, nombre, cantidad)
    }
  }

  /** No product object appears twice in the list. */
  predicate DistinctObjects(ps: seq<Producto>) {
    forall i, j :: 0 <= i < j < |ps| ==> ps[i] != ps[j]
  }

  predicate DistinctIds(vs: seq<ProductView>) {
    forall i, j :: 0 <= i < j < |vs| ==> vs[i].productId != vs[j].productId
  }

  const NamePrefix: string := "Producto "

  /** The name the cache gives product `id`: "Producto " followed by the id. */
  function ProductName(id: int): string {
    NamePrefix + ToString(id)
  }

  /** A product's name is "Producto " followed by text that reads back as the product's id. */
  lemma ProductNameCarriesId(id: int)
    ensures |NamePrefix| < |ProductName(id)| && ProductName(id)[..|NamePrefix|] == NamePrefix
    ensures Parse(ProductName(id)[|NamePrefix|..]) == id
  {
    ParseToString(id);
    assert ProductName(id)[|NamePrefix|..] == ToString(id);
  }

  /** The first `n` products of the list a refresh builds, each with the store's stock. */
  function Catalog(records: Records, n: nat): (vs: seq<ProductView>)
    requires n <= ProductCount
    ensures |vs| == n
    ensures forall k :: 0 <= k < n ==>
              vs[k] == ProductView(k + 1, ProductName(k + 1), ReadStock(records, k + 1))
    ensures DistinctIds(vs)
  {
    if n == 0 then [] else Catalog(records, n - 1) + [ProductView(n, ProductName(n), ReadStock(records, n))]
  }

  /** `i` is the position of the first product with id `id` (what `FirstOrDefault` finds). */
  predicate IsFirstMatch(vs: seq<ProductView>, id: int, i: int) {
    0 <= i < |vs| && vs[i].productId == id &&
    forall k :: 0 <= k < i ==> vs[k].productId != id
  }

  function FirstIndex(vs: seq<ProductView>, id: int): (r: Option<nat>)
    ensures r.Some? ==> IsFirstMatch(vs, id, r.value)
    ensures r.None? <==> forall k :: 0 <= k < |vs| ==> vs[k].productId != id
    ensures forall i :: IsFirstMatch(vs, id, i) ==> r == Some(i)
  {
    if vs == [] then None
    else if vs[0].productId == id then Some(0)
    else match FirstIndex(vs[1..], id)
      case None => None
      case Some(i) => Some(i + 1)
  }

  /** LINQ's `FirstOrDefault(p => p.ProductId == id)` over a list of products. */
  function FirstOrDefault(ps: seq<Producto>, id: int): (item: Producto?)
    reads ps
    ensures item == null <==> forall k :: 0 <= k < |ps| ==> ps[k].productId != id
    ensures item != null ==>
              exists i :: 0 <= i < |ps| && item == ps[i] && ps[i].productId == id &&
                          forall k :: 0 <= k < i ==> ps[k].productId != id
  {
    if ps == [] then null
    else if ps[0].productId == id then ps[0]
    else FirstOrDefault(ps[1..], id)
  }

  /** On a list of products, `FirstOrDefault` picks the product at the first matching position of their values. */
  lemma {:induction false} FirstOrDefaultFindsFirstIndex(ps: seq<Producto>, vs: seq<ProductView>, id: int)
    requires |ps| == |vs| && forall i :: 0 <= i < |ps| ==> ps[i].View() == vs[i]
    ensures FirstOrDefault(ps, id) == null <==> FirstIndex(vs, id).None?
    ensures FirstIndex(vs, id).Some? ==> FirstOrDefault(ps, id) == ps[FirstIndex(vs, id).value]
  {
    if ps != [] && ps[0].productId != id {
      FirstOrDefaultFindsFirstIndex(ps[1..], vs[1..], id);
    }
  }

  /** What `ActualizarStock(id, c)` answers and the product values it leaves. */
  datatype Withdrawal = Withdrawal(ok: bool, after: seq<ProductView>)

  function Withdraw(vs: seq<ProductView>, id: int, c: Int32): (w: Withdrawal)
    ensures |w.after| == |vs|
  {
    match FirstIndex(vs, id)
    case None => Withdrawal(false, vs)
    case Some(i) =>
      if c <= vs[i].cantidad then Withdrawal(true, vs[i := vs[i].(cantidad := Wrap(vs[i].cantidad - c))])
      else Withdrawal(false, vs)
  }

  /**
   * A withdrawal succeeds exactly when the first product with the id has at
   * least `c` in stock; it then lowers that product's stock by `c` and changes
   * nothing else, and when it fails it changes nothing.
   */
  lemma WithdrawSpec(vs: seq<ProductView>, id: int, c: Int32)
    ensures var w := Withdraw(vs, id, c);
            (w.ok <==> exists i :: IsFirstMatch(vs, id, i) && c <= vs[i].cantidad) &&
            (!w.ok ==> w.after == vs) &&
            (w.ok ==> exists i :: IsFirstMatch(vs, id, i) &&
                                  w.after == vs[i := vs[i].(cantidad := Wrap(vs[i].cantidad - c))])
  {
    var w := Withdraw(vs, id, c);
    match FirstIndex(vs, id)
    case None =>
      assert !w.ok && w.after == vs;
    case Some(i) =>
      assert IsFirstMatch(vs, id, i);
      if c <= vs[i].cantidad {
        assert w.ok && w.after == vs[i := vs[i].(cantidad := Wrap(vs[i].cantidad - c))];
      } else {
        assert !w.ok && w.after == vs;
      }
  }

  /** A withdrawal keeps the length and order of the list and every id and name. */
  lemma WithdrawKeepsIdsAndNames(vs: seq<ProductView>, id: int, c: Int32)
    ensures var w := Withdraw(vs, id, c);
            forall j :: 0 <= j < |vs| ==> w.after[j].productId == vs[j].productId && w.after[j].nombre == vs[j].nombre
  {
    WithdrawSpec(vs, id, c);
  }

  lemma WithdrawKeepsDistinctIds(vs: seq<ProductView>, id: int, c: Int32)
    requires DistinctIds(vs)
    ensures DistinctIds(Withdraw(vs, id, c).after)
  {
    WithdrawKeepsIdsAndNames(vs, id, c);
  }

  /** With distinct ids, a withdrawal succeeds exactly when some product has the id and enough stock. */
  lemma WithdrawSucceedsIff(vs: seq<ProductView>, id: int, c: Int32)
    requires DistinctIds(vs)
    ensures Withdraw(vs, id, c).ok <==>
            exists j :: 0 <= j < |vs| && vs[j].productId == id && c <= vs[j].cantidad
  {
    WithdrawSpec(vs, id, c);
    if j :| 0 <= j < |vs| && vs[j].productId == id && c <= vs[j].cantidad {
      assert IsFirstMatch(vs, id, j);
    }
  }

  /**
   * A withdrawal of a non-negative amount from non-negative stock leaves every
   * stock non-negative, and the product it decrements drops by exactly that amount.
   */
  lemma WithdrawKeepsStockNonNegative(vs: seq<ProductView>, id: int, c: Int32)
    requires 0 <= c
    requires forall j :: 0 <= j < |vs| ==> 0 <= vs[j].cantidad
    ensures var w := Withdraw(vs, id, c);
            forall j :: 0 <= j < |vs| ==>
              0 <= w.after[j].cantidad &&
              (w.after[j].cantidad == vs[j].cantidad || w.after[j].cantidad == vs[j].cantidad - c)
  {
    WithdrawSpec(vs, id, c);
  }

  /** The `UpdateStock` calls a synchronisation makes: one per product, in list order. */
  function SyncWrites(vs: seq<ProductView>): (ws: seq<Write>)
    ensures |ws| == |vs|
    ensures forall i :: 0 <= i < |vs| ==> ws[i] == Write(vs[i].productId, vs[i].cantidad)
  {
    if vs == [] then [] else SyncWrites(vs[..|vs| - 1]) + [Write(vs[|vs| - 1].productId, vs[|vs| - 1].cantidad)]
  }

  /** After a synchronisation, every cached product reads back from the store as its cached quantity. */
  lemma SyncStoresEveryProduct(records: Records, vs: seq<ProductView>)
    requires DistinctIds(vs)
    ensures forall p :: p in vs ==>
              ReadStock(ApplyWrites(records, SyncWrites(vs)), p.productId) == p.cantidad
  {
    var ws := SyncWrites(vs);
    forall p | p in vs
      ensures ReadStock(ApplyWrites(records, ws), p.productId) == p.cantidad
    {
      var i :| 0 <= i < |vs| && vs[i] == p;
      ReadAfterWrites(records, ws, p.productId);
      assert ws[i].productId == p.productId;
      var a := LastWrite(ws, p.productId).value;
      var k :| 0 <= k < |ws| && ws[k] == Write(p.productId, a);
      assert k == i;
    }
  }

  /** A synchronisation leaves the stock of every product that is not cached as it was. */
  lemma SyncLeavesOthers(records: Records, vs: seq<ProductView>, q: int)
    requires forall p :: p in vs ==> p.productId != q
    ensures ReadStock(ApplyWrites(records, SyncWrites(vs)), q) == ReadStock(records, q)
  {
    ReadAfterWrites(records, SyncWrites(vs), q);
  }

  /** Synchronising a freshly refreshed list writes back exactly what the store held. */
  lemma RefreshThenSyncChangesNoStock(records: Records, q: int)
    ensures var vs := Catalog(records, ProductCount);
            ReadStock(ApplyWrites(records, SyncWrites(vs)), q) == ReadStock(records, q)
  {
    var vs := Catalog(records, ProductCount);
    if 1 <= q <= ProductCount {
      SyncStoresEveryProduct(records, vs);
      assert vs[q - 1] in vs;
    } else {
      SyncLeavesOthers(records, vs, q);
    }
  }

  /** The loaded list is older than 30 minutes at time `now`. */
  predicate IsStale(lastRefresh: int, now: int) {
    now > lastRefresh + MaxAge
  }

  /**
   * The cache. Times are `DateTime` ticks; each method that reads the clock
   * receives the value it reads.
   */
  class Cache {
    var productosCache: seq<Producto>
    var ultimaActualizacion: int
    const warehouseClient: WarehouseStockSystemClient
    /** The values of the cached products, in list order. */
    ghost var Contents: seq<ProductView>

    /** `Contents` is what the cached products hold; they are distinct objects with distinct ids. */
    ghost predicate Valid()
      reads this, productosCache
    {
      |Contents| == |productosCache| &&
      (forall i :: 0 <= i < |productosCache| ==> productosCache[i].View() == Contents[i]) &&
      DistinctObjects(productosCache) && DistinctIds(Contents)
    }

    /** Loads the list from the store at time `now`. */
    constructor (client: WarehouseStockSystemClient, now: int)
      ensures Valid() && warehouseClient == client
      ensures Contents == Catalog(client.records, ProductCount)
      ensures ultimaActualizacion == now
      ensures forall i :: 0 <= i < |productosCache| ==> fresh(productosCache[i])
    {
      warehouseClient := client;
      new;
      var productos := RefrescarCache(now);
      productosCache := productos;
    }

    /**
     * The cached list, refreshed first if it is stale at `now`; `refreshedAt`
     * is the clock reading the refresh records.
     */
    method ObtenerProductos(now: int, refreshedAt: int) returns (productos: seq<Producto>)
      requires Valid()
      modifies this
      ensures Valid() && productos == productosCache
      ensures IsStale(old(ultimaActualizacion), now) ==>
                Contents == Catalog(warehouseClient.records, ProductCount) &&
                ultimaActualizacion == refreshedAt &&
                forall i :: 0 <= i < |productosCache| ==> fresh(productosCache[i])
      ensures !IsStale(old(ultimaActualizacion), now) ==>
                productosCache == old(productosCache) && Contents == old(Contents) &&
                ultimaActualizacion == old(ultimaActualizacion)
    {
      if IsStale(ultimaActualizacion, now) {
        var refreshed := RefrescarCache(refreshedAt);
        productosCache := refreshed;
      }
      productos := productosCache;
    }

    /** Takes `cantidad` units of `productId` out of the cached stock, if the first such product has enough. */
    method ActualizarStock(productId: Int32, cantidad: Int32) returns (actualizado: bool)
      requires Valid()
      modifies this, productosCache
      ensures Valid() && productosCache == old(productosCache)
      ensures ultimaActualizacion == old(ultimaActualizacion)
      ensures actualizado == Withdraw(old(Contents), productId, cantidad).ok
      ensures Contents == Withdraw(old(Contents), productId, cantidad).after
    {
      ghost var before := Contents;
      WithdrawKeepsDistinctIds(before, productId, cantidad);
      var item := FirstOrDefault(productosCache, productId);
      FirstOrDefaultFindsFirstIndex(productosCache, before, productId);
      if item != null && item.cantidad >= cantidad {
        ghost var i := FirstIndex(before, productId).value;
        item.cantidad := Wrap(item.cantidad - cantidad);
        Contents := before[i := item.View()];
        actualizado := true;
        forall j | 0 <= j < |productosCache| && j != i
          ensures productosCache[j].View() == Contents[j]
        {
          assert productosCache[j] != item;
        }
      } else {
        actualizado := false;
      }
    }

    /** Rebuilds the list from the store's stock of products 1 to 5 and records `now` as the refresh time. */
    method RefrescarCache(now: int) returns (productos: seq<Producto>)
      modifies this
      ensures Valid() && productos == productosCache
      ensures Contents == Catalog(warehouseClient.records, ProductCount)
      ensures ultimaActualizacion == now
      ensures forall i :: 0 <= i < |productosCache| ==> fresh(productosCache[i])
    {
      var list;
      list, Contents := LoadProducts();
      productosCache := list;
      ultimaActualizacion := now;
      productos := productosCache;
    }

    /** The loop of the refresh: a new product for each id from 1 to 5, holding the store's stock. */
    method LoadProducts() returns (list: seq<Producto>, ghost views: seq<ProductView>)
      ensures views == Catalog(warehouseClient.records, ProductCount)
      ensures |list| == |views| && DistinctObjects(list)
      ensures forall k :: 0 <= k < |list| ==> fresh(list[k]) && list[k].View() == views[k]
    {
      list, views := [], [];
      for i := 1 to ProductCount + 1
        invariant |list| == |views| == i - 1
        invariant views == Catalog(warehouseClient.records, i - 1)
        invariant forall k :: 0 <= k < |list| ==> fresh(list[k]) && list[k].View() == views[k]
        invariant DistinctObjects(list)
      {
        var stock := warehouseClient.GetStock(i);
        var p := new Producto(i, ProductName(i), stock);
        list := list + [p];
        views := views + [p.View()];
      }
    }

    /** Writes the cached quantity of every product back to the store, in list order. */
    method SincronizarConSistemaAntiguo()
      requires Valid()
      modifies warehouseClient
      ensures Valid()
      ensures warehouseClient.records
              == ApplyWrites(old(warehouseClient.records), SyncWrites(Contents))
      ensures forall p :: p in Contents ==> ReadStock(warehouseClient.records, p.productId) == p.cantidad
      ensures forall q :: (forall p :: p in Contents ==> p.productId != q) ==>
                ReadStock(warehouseClient.records, q) == old(ReadStock(warehouseClient.records, q))
    {
      var productos := productosCache;
      ghost var writes := SyncWrites(Contents);
      for i := 0 to |productos|
        invariant warehouseClient.records == ApplyWrites(old(warehouseClient.records), writes[..i])
      {
        warehouseClient.UpdateStock(productos[i].productId, productos[i].cantidad);
        assert writes[..i + 1][..i] == writes[..i];
      }
      assert writes[..|productos|] == writes;
      SyncStoresEveryProduct(old(warehouseClient.records), Contents);
      forall q | forall p :: p in Contents ==> p.productId != q
        ensures ReadStock(warehouseClient.records, q) == old(ReadStock(warehouseClient.records, q))
      {
        SyncLeavesOthers(old(warehouseClient.records), Contents, q);
      }
    }
  }
}

=== FILE: wrappers.dfy ===
/** The optional value used where the source has a nullable reference or an unset variable. */
module Wrappers {
  datatype Option<+T> = None | Some(value: T)
}
